=== FILE: README.md ===
# Heart-game quiz: turn state machine and leaderboard, in Dafny

This project models the core of a browser quiz game. The game shows a puzzle,
takes a numeric answer within ten seconds, scores the player and keeps a local
leaderboard. Three parts are modelled, with the browser taken away:

- **The turn state machine** (`GameManager` in `gameManager.js`), in
  `game_manager.dfy`. The state is an immutable record: the player, the correct
  answer, `timeLeft`, `isTimeUp`, `hasAnswered`, whether the countdown
  interval runs, the stored leaderboard list and the entries on display.
  Each callback is a pure transition: login (`startGame`), a successful or
  failed puzzle load, one timer tick, `submitAnswer` and `logout`. `Run` plays
  a sequence of such events.
- **Properties over event sequences**, in `turns.dfy`. In a run of ticks,
  submissions and failed loads, at most one submission is graded and the
  score changes at most once; logins in the run do not raise the graded
  bound. A closed turn
  (expired or answered) is frozen. The countdown expires on exactly the tenth
  tick. A non-numeric answer stops the clock for the rest of the turn.
- **The score store** (`saveScore`) and **the leaderboard view** (the sort
  and slice of `showLeaderboard`), in `score_store.dfy` and `leaderboard.dfy`.
  The store is a list of `(name, score)` entries with an upsert by name. The
  view is a stable sort by descending score cut to five entries. The sort is
  proved to be sorted, a permutation and order-preserving on ties. These three
  properties are also proved to determine the sorted list uniquely.
- **The player record** (`player.js`), in `player.dfy`, with a reference
  definition of the score after any sequence of increments and resets.

Modelling choices:

- The puzzle fetch is an event carrying the correct answer, or a failure event.
- The one-second interval is a `running` flag plus explicit `Tick` events.
  A tick fires only while the timer runs.
- The answer field after `parseInt` is an `Option<int>`, where `None` is `NaN`.
- The storage key is an `Option<seq<Entry>>`, where `None` means the key is
  absent. An absent key reads as the empty list.
- The model starts from the state after the constructor and the first
  `startGame`. A later `startGame` is the `StartGame` event. It replaces the
  player and empties the display. The load that `startGame` begins completes
  asynchronously, so it arrives as a separate load event.

Facts about the code that shape the model:

- A non-numeric answer stops the timer (`gameManager.js:103`) before the
  number check (`gameManager.js:109`), and nothing restarts it before the next
  successful load (`gameManager.js:53`). The turn stays answerable, but it can
  no longer expire. `Turns.NonNumericFreezesClock`
  proves this.
- An absent storage key, or stored JSON whose value is falsy (`null`, `0`,
  `false`, `""`), reads as `[]` (`gameManager.js:133`, `148`). Malformed JSON
  throws in `JSON.parse`, and a stored value that is truthy but not a list
  throws in `find` (`gameManager.js:135`). The model covers only an absent key
  or a well-formed list, and claims no recovery from anything else.
- The page has a second lock on submissions besides `hasAnswered`: expiry
  (`gameManager.js:79-80`) and a graded answer (`gameManager.js:127-128`)
  disable the answer input and the submit button, and only a successful load
  enables them again (`gameManager.js:47-48`); `logout` and `startGame` do not.
  The model does not carry this lock, so it lets more submissions reach
  `submitAnswer` than the page does. In particular `logout` clears both turn
  flags without loading a puzzle (`gameManager.js:178-179`), so in the model a
  submission after a logout is graded again, where the page's disabled button
  would block it. For that reason the "at most one score change" property is
  stated for runs of ticks, submissions and failed loads, and
  `Turns.LogoutKeepsStore` shows the flags are clear after a logout.

## Model

| member | source | states |
|---|---|---|
| Players.NewPlayer | player.js:2-5 | a new player has the given name and score 0 |
| Players.AddScore | player.js:7-9 | the score rises by exactly one and the name is kept |
| Players.ResetScore | player.js:11-13 | the score becomes 0 and the name is kept |
| Players.ApplyAllMatchesReference | player.js:1-14 | after any sequence of increments and resets the name is unchanged and the score equals the reference count: 0 at the last reset, plus one per later increment |
| Players.ScoreNeverNegative | player.js:1-14 | a player created by the constructor never has a negative score, whatever increments and resets follow |
| ScoreStore.FindName | gameManager.js:135 | the search returns the first position holding the name, and returns nothing exactly when no entry has the name |
| ScoreStore.Upsert | gameManager.js:132-144 | a present name keeps the length and overwrites only the first entry with that name; an absent name appends one entry; entries with other names are unchanged; the name is present afterwards; a list with distinct names keeps them distinct, and the saved name then holds exactly the saved score |
| ScoreStore.UpsertTwice | gameManager.js:132-144 | a second save under the same name equals saving the second score once, and the list does not grow |
| ScoreStore.FirstSaveCreatesList | gameManager.js:133 | when the storage key is absent, the first save produces a one-entry list |
| Leaderboard.SortByScoreCorrect | gameManager.js:151-152 | the sorted list is non-increasing by score, is a permutation of the stored list, and lists the entries of each score in stored order (stability) |
| Leaderboard.SortedStableUnique | gameManager.js:151-152 | two lists that are both sorted and hold the entries of each score in the same order are equal |
| Leaderboard.SortByScoreIsTheStableSort | gameManager.js:151-152 | any sorted list that keeps the stored order of ties is exactly the sort result |
| Leaderboard.SortedPrefixIsTop | gameManager.js:153 | the first n entries of a sorted list are sorted, come from the list, and outscore or tie every dropped entry |
| Leaderboard.TopEntriesCorrect | gameManager.js:148-153 | the view has min(5, stored count) entries, is sorted, is a sub-multiset of the stored list, no left-out entry beats a listed one, and ties appear in stored order |
| GameManager.Start | gameManager.js:4-31 | after construction and login the player is new, the turn is open, the timer is stopped at the full 10 seconds, the correct answer is the constructor's 0 (with `SubmitAnswer`'s contract this means an answer of 0 before the first puzzle loads scores a point), and the state satisfies the invariant |
| GameManager.StartGameStep | gameManager.js:21-31 | logging in again installs a fresh player and empties the display, leaving timer, flags and store as they were |
| GameManager.LoadPuzzle | gameManager.js:35-53 | a successful load installs the new answer, opens the turn and starts the countdown at 10; the player and store are untouched |
| GameManager.TimerTick | gameManager.js:60-82 | a tick is a no-op when the timer is stopped; otherwise it lowers the time by one, expires the turn and stops the timer exactly when the time reaches zero, and changes nothing else |
| GameManager.SubmitAnswer | gameManager.js:90-129 | an expired or answered turn ignores the submission; a non-number only stops the timer; a number closes the turn, stops the timer, adds one point exactly when it is correct, upserts the score and shows the top entries; the score changes only for a correct number on an open turn |
| GameManager.LogoutStep | gameManager.js:163-180 | logout stops the timer, clears both turn flags and the display, and keeps the player, the answer and the stored scores |
| GameManager.Step | gameManager.js:20-180 | every event preserves the reachable-state invariant; a failed load changes nothing |
| GameManager.Run | gameManager.js:20-180 | any event sequence from a valid state ends in a valid state: time within 0..10, score non-negative, a running timer only on an open turn with time left, expiry only at time 0 and never together with an answer |
| Turns.AtMostOneScoreChange | gameManager.js:91-118 | in a run of ticks, submissions and failed loads, at most one submission is graded and the score changes at most once; on a closed turn neither happens, and the turn stays closed |
| Turns.AtMostOneGraded | gameManager.js:21-118 | in a run of ticks, submissions, failed loads and logins, at most one submission is graded, none once the turn is closed, and a closed turn stays closed: a login keeps the turn flags |
| Turns.LockedTurnIsFrozen | gameManager.js:60-101 | from a reachable closed turn, ticks, submissions and failed loads leave the whole state unchanged |
| Turns.CountDown | gameManager.js:68-82 | n ticks on a running countdown with more than n seconds left lower the time by exactly n and change nothing else |
| Turns.CountDownExpires | gameManager.js:68-82 | a running countdown expires and stops on exactly its last tick |
| Turns.TurnExpiresAfterTenTicks | gameManager.js:50-83 | after a load and k < 10 ticks, the turn is open (neither expired nor answered) with the countdown running at 10 - k; after 10 ticks it is expired with the timer stopped, and then refuses every submission |
| Turns.NonNumericFreezesClock | gameManager.js:103-113 | a non-numeric answer on an open turn keeps the turn open and the score unchanged, stops the timer so no later tick has any effect, and a numeric resubmission is still graded |
| Turns.StoppedClockIgnoresTicks | gameManager.js:85-87 | once the timer is stopped, any number of ticks changes nothing |
| Turns.LogoutKeepsStore | gameManager.js:163-180 | logout followed by a new login keeps the stored scores, clears both turn flags and installs the new player |
| Turns.AdaAnswersCorrectly | gameManager.js:90-153 | on a fresh browser, "Ada" answering 7 to a puzzle whose answer is 7 has score 1, and the stored list and the board are exactly `Ada: 1` |
| Turns.AdaThenAnswersWrongly | gameManager.js:90-153 | from that state, a wrong answer on the next puzzle keeps score 1, and the stored list and the board are still exactly `Ada: 1` |

## Left out

- The network fetch and the puzzle API (`gameManager.js:37-38`). A load is an event carrying an integer answer, or a failure. The model does not cover a fetch that never resolves.
- The type of the API's `solution` and the strict comparison against it. The answer is assumed to be an integer.
- `parseInt` string semantics: prefix parsing, whitespace and signs. The input is an `Option<int>`.
- DOM work: screens, feedback and timer texts, and building the leaderboard HTML. This is presentation only. The displayed board is kept as a list of entries.
- The disabled state of the answer input and submit button (`gameManager.js:47-48`, `79-80`, `127-128`). It is a second lock on submissions that the model drops, so the model lets more submissions reach `submitAnswer` than the page does: after a logout, for one, a submission is graded again in the model but blocked on the page.
- Background music (`Audio`). It is an external side effect.
- Real-time scheduling with `setInterval`/`clearInterval`. Time is modelled only as explicit tick events while the timer runs.
- `localStorage` and JSON encoding. The store is either absent or a well-formed list of entries. Stored JSON whose value is falsy (read as `[]` by the code), malformed JSON (which throws in `JSON.parse`) and a stored non-list (which throws in `find`) are not modelled.
- Turns.AtMostOneScoreChange: the once-per-turn bound is stated for runs of ticks, submissions and failed loads. Logout is left out because the disabled input/button lock (`gameManager.js:47-48`, `79-80`, `127-128`) is not modelled: `logout` clears both turn flags, so a submission after it is graded again in the model, where the page blocks it. StartGame is left out of the score-change count for a different reason: a login installs a new player with score 0 (`gameManager.js:22`, `player.js:4`), a change that is not a graded submission. With logins in the run, `Turns.AtMostOneGraded` still bounds the graded submissions by one.
- The constructor's `null` player before the first login. Only the login screen can reach that state, so the model starts after the first `startGame`.
- JavaScript number arithmetic in the comparator `b.score - a.score`. Scores are unbounded integers, which matches for the small counts the game produces.

=== FILE: game_manager.dfy ===
/** The quiz's turn state machine (`GameManager` in gameManager.js) with the
    browser taken away: every callback is a pure transition on an immutable
    state record. The puzzle fetch arrives as a load event carrying the
    correct answer (or a failure), the one-second interval as explicit tick
    events that fire only while the timer runs, and the parsed answer field
    as an optional integer (None is `NaN`). */
module GameManager {
  import opened Wrappers
  import opened Players
  import opened ScoreStore
  import opened Leaderboard

  /** Length of a turn, in one-second ticks. */
  const TurnLength := 10

  /** `running` says whether an interval is scheduled; `stored` is the
      leaderboard storage key (None while absent); `board` is the list of
      entries the leaderboard currently shows. */
  datatype Game = Game(
    player: Player,
    correctAnswer: int,
    timeLeft: int,
    isTimeUp: bool,
    hasAnswered: bool,
    running: bool,
    stored: Option<seq<Entry>>,
    board: seq<Entry>)

  datatype Event =
    | StartGame(name: string)     // login with a name; the puzzle load it begins arrives as a load event
    | LoadSucceeded(answer: int)  // the fetch resolved with a puzzle
    | LoadFailed                  // the fetch or its JSON decoding threw
    | Tick                        // the interval callback fired
    | Submit(input: Option<int>)  // submitAnswer with the parsed input
    | Logout

  /** The states the machine can reach. */
  predicate Valid(g: Game) {
    && 0 <= g.timeLeft <= TurnLength
    && g.player.score >= 0
    && (g.running ==> 1 <= g.timeLeft && !g.isTimeUp && !g.hasAnswered)
    && (g.isTimeUp ==> g.timeLeft == 0 && !g.hasAnswered)
  }

  /** The turn is closed: expired or answered. */
  predicate Locked(g: Game) {
    g.isTimeUp || g.hasAnswered
  }

  /** The constructor followed by the first `startGame(name)`, with the
      storage key as the browser holds it. */
  function Start(name: string, stored: Option<seq<Entry>>): (g: Game)
    ensures Valid(g)
    ensures g.player == NewPlayer(name) && g.stored == stored
    ensures !Locked(g) && !g.running && g.board == []
    // the constructor's answer 0 stays in force until a puzzle loads, so a
    // submission of 0 before then is graded as correct
    ensures g.correctAnswer == 0 && g.timeLeft == TurnLength
  {
    Game(NewPlayer(name), 0, TurnLength, false, false, false, stored, [])
  }

  /** `startGame(name)` on an existing manager: a fresh player and an
      emptied leaderboard display; the timer and turn flags are untouched. */
  function StartGameStep(g: Game, name: string): (r: Game)
    ensures r.player == NewPlayer(name) && r.board == []
    ensures r.(player := g.player, board := g.board) == g
  {
    g.(player := NewPlayer(name), board := [])
  }

  /** `startTimer`: clear any interval, then count down from the start. */
  function StartTimer(g: Game): Game {
    g.(timeLeft := TurnLength, isTimeUp := false, running := true)
  }

  /** `stopTimer`. */
  function StopTimer(g: Game): Game {
    g.(running := false)
  }

  /** `loadPuzzle` when the fetch succeeds: a new correct answer, an open
      turn, and a running countdown at its full length. */
  function LoadPuzzle(g: Game, answer: int): (r: Game)
    ensures r.correctAnswer == answer
    ensures r.timeLeft == TurnLength && r.running
    ensures !Locked(r)
    ensures r.player == g.player && r.stored == g.stored && r.board == g.board
  {
    StartTimer(g.(correctAnswer := answer, isTimeUp := false, hasAnswered := false))
  }

  /** One firing of the interval callback. It fires only while the timer
      runs; it lowers the time by one, and on reaching zero it stops itself
      and expires the turn. */
  function TimerTick(g: Game): (r: Game)
    ensures !g.running ==> r == g
    ensures g.running ==> r.timeLeft == g.timeLeft - 1
    ensures g.running ==> (r.isTimeUp <==> g.isTimeUp || r.timeLeft <= 0)
    ensures g.running ==> (r.running <==> r.timeLeft > 0)
    ensures r.(timeLeft := g.timeLeft, isTimeUp := g.isTimeUp, running := g.running) == g
  {
    if !g.running then g
    else
      var t := g.timeLeft - 1;
      if t <= 0 then StopTimer(g.(timeLeft := t, isTimeUp := true))
      else g.(timeLeft := t)
  }

  /** `saveScore`: upsert the player's current score into the stored list. */
  function SaveScore(g: Game): Game {
    g.(stored := Some(Upsert(LoadStore(g.stored), g.player.name, g.player.score)))
  }

  /** `showLeaderboard`: list the top entries of the stored list. */
  function ShowLeaderboard(g: Game): Game {
    g.(board := TopEntries(LoadStore(g.stored)))
  }

  /** A numeric answer that the guards let through: grade, save, show. */
  function Grade(g: Game, answer: int): Game {
    var answered := StopTimer(g).(hasAnswered := true);
    var graded := if answer == g.correctAnswer then answered.(player := AddScore(g.player)) else answered;
    ShowLeaderboard(SaveScore(graded))
  }

  /** `submitAnswer`. Time-up is checked first, then the answered lock;
      past both, the timer stops for the rest of the turn, and only then is
      the input checked for a number. */
  function SubmitAnswer(g: Game, input: Option<int>): (r: Game)
    // an expired turn ignores every submission
    ensures g.isTimeUp ==> r == g
    // so does an answered one
    ensures g.hasAnswered ==> r == g
    // a non-number only stops the timer; the turn stays open
    ensures !Locked(g) && input.None? ==> r == g.(running := false)
    // a number closes the turn, stops the timer, scores one point exactly when
    // it is the correct answer, saves the player's score and shows the board
    ensures !Locked(g) && input.Some? ==>
      && r.hasAnswered && !r.isTimeUp && !r.running
      && r.player.name == g.player.name
      && r.player.score == (if input.value == g.correctAnswer then g.player.score + 1 else g.player.score)
      && r.stored == Some(Upsert(LoadStore(g.stored), g.player.name, r.player.score))
      && r.board == TopEntries(LoadStore(r.stored))
      && r.timeLeft == g.timeLeft && r.correctAnswer == g.correctAnswer
    // the score moves only for the correct number on an open turn
    ensures r.player.score != g.player.score <==> !Locked(g) && input == Some(g.correctAnswer)
  {
    if g.isTimeUp then g
    else if g.hasAnswered then g
    else
      match input
      case None => StopTimer(g)
      case Some(answer) => Grade(g, answer)
  }

  /** `logout`: stop the timer and clear both turn flags. The player, the
      correct answer and the stored scores are left as they were. */
  function LogoutStep(g: Game): (r: Game)
    ensures !r.running && !Locked(r)
    ensures r.player == g.player && r.stored == g.stored && r.correctAnswer == g.correctAnswer
    ensures r.timeLeft == g.timeLeft && r.board == []
  {
    StopTimer(g).(isTimeUp := false, hasAnswered := false, board := [])
  }

  /** The effect of one event. A failed load only changes the message. */
  function Step(g: Game, e: Event): (r: Game)
    ensures Valid(g) ==> Valid(r)
    ensures e.LoadFailed? ==> r == g
  {
    match e
    case StartGame(name) => StartGameStep(g, name)
    case LoadSucceeded(answer) => LoadPuzzle(g, answer)
    case LoadFailed => g
    case Tick => TimerTick(g)
    case Submit(input) => SubmitAnswer(g, input)
    case Logout => LogoutStep(g)
  }

  /** The state after the events `es`, first to last. */
  function Run(g: Game, es: seq<Event>): (r: Game)
    ensures Valid(g) ==> Valid(r)
    decreases |es|
  {
    if |es| == 0 then g else Run(Step(g, es[0]), es[1..])
  }
}

=== FILE: leaderboard.dfy ===
/** The leaderboard view of `showLeaderboard` (gameManager.js): the stored
    entries sorted by descending score with a stable sort
    (`sort((a, b) => b.score - a.score)`), then the first five
    (`slice(0, 5)`). The sort runs on a freshly parsed copy, so the stored
    list itself is never reordered. */
module Leaderboard {
  import opened ScoreStore

  /** Number of entries the view lists. */
  const BoardSize := 5

  /** Non-increasing by score. */
  predicate SortedDesc(s: seq<Entry>) {
    forall i, j :: 0 <= i < j < |s| ==> s[i].score >= s[j].score
  }

  /** The entries of `s` whose score is `k`, in their order in `s`. A stable
      sort keeps each of these subsequences as it was. */
  function WithScore(s: seq<Entry>, k: int): seq<Entry>
    decreases |s|
  {
    if |s| == 0 then []
    else (if s[0].score == k then [s[0]] else []) + WithScore(s[1..], k)
  }

  /** Places `e` in front of the first entry whose score is not above its
      own, so entries that tie with `e` stay behind it. */
  function Insert(e: Entry, t: seq<Entry>): seq<Entry>
    decreases |t|
  {
    if |t| == 0 || t[0].score <= e.score then [e] + t
    else [t[0]] + Insert(e, t[1..])
  }

  /** Stable sort by descending score: insert each entry, last to first, in
      front of the entries that tie with it. */
  function SortByScore(s: seq<Entry>): seq<Entry>
    decreases |s|
  {
    if |s| == 0 then [] else Insert(s[0], SortByScore(s[1..]))
  }

  /** The listed entries: at most the first `BoardSize` of the sorted list. */
  function TopEntries(s: seq<Entry>): seq<Entry> {
    var sorted := SortByScore(s);
    if |sorted| <= BoardSize then sorted else sorted[..BoardSize]
  }

  lemma {:induction false} InsertSorted(e: Entry, t: seq<Entry>)
    requires SortedDesc(t)
    ensures SortedDesc(Insert(e, t))
    ensures Insert(e, t)[0] == e || (|t| > 0 && Insert(e, t)[0] == t[0])
    decreases |t|
  {
    if |t| == 0 || t[0].score <= e.score {
    } else {
      var rest := Insert(e, t[1..]);
      InsertSorted(e, t[1..]);
      assert t[0].score >= rest[0].score;
      forall i, j | 0 <= i < j < |Insert(e, t)|
        ensures Insert(e, t)[i].score >= Insert(e, t)[j].score
      {
        if i == 0 && j > 1 {
          assert rest[0].score >= rest[j - 1].score;
        }
      }
    }
  }

  lemma {:induction false} InsertPermutes(e: Entry, t: seq<Entry>)
    ensures |Insert(e, t)| == |t| + 1
    ensures multiset(Insert(e, t)) == multiset(t) + multiset{e}
    decreases |t|
  {
    if |t| > 0 && t[0].score > e.score {
      InsertPermutes(e, t[1..]);
      assert t == [t[0]] + t[1..];
    }
  }

  lemma {:induction false} InsertWithScore(e: Entry, t: seq<Entry>, k: int)
    ensures WithScore(Insert(e, t), k) == (if e.score == k then [e] else []) + WithScore(t, k)
    decreases |t|
  {
    if |t| == 0 || t[0].score <= e.score {
      assert ([e] + t)[1..] == t;
    } else {
      InsertWithScore(e, t[1..], k);
      assert ([t[0]] + Insert(e, t[1..]))[1..] == Insert(e, t[1..]);
    }
  }

  /** The sorted list is sorted, is a permutation of the stored list, and
      ties keep their stored order. */
  lemma {:induction false} SortByScoreCorrect(s: seq<Entry>)
    ensures SortedDesc(SortByScore(s))
    ensures multiset(SortByScore(s)) == multiset(s)
    ensures forall k :: WithScore(SortByScore(s), k) == WithScore(s, k)
    decreases |s|
  {
    if |s| > 0 {
      SortByScoreCorrect(s[1..]);
      InsertSorted(s[0], SortByScore(s[1..]));
      InsertPermutes(s[0], SortByScore(s[1..]));
      assert s == [s[0]] + s[1..];
      forall k ensures WithScore(SortByScore(s), k) == WithScore(s, k) {
        InsertWithScore(s[0], SortByScore(s[1..]), k);
      }
    }
  }

  lemma {:induction false} WithScoreMember(s: seq<Entry>, k: int, x: Entry)
    requires x in WithScore(s, k)
    ensures x in s && x.score == k
    decreases |s|
  {
    if s[0].score == k && x == s[0] {
    } else {
      WithScoreMember(s[1..], k, x);
    }
  }

  /** Helper for `SortedStableUnique`: unfolds `WithScore` once at the head's
      own score, so a non-empty list lists at least its head there. */
  lemma HeadIsListed(s: seq<Entry>)
    ensures |s| > 0 ==> WithScore(s, s[0].score) == [s[0]] + WithScore(s[1..], s[0].score)
  {
  }

  /** Sortedness together with per-score order pins the list down: two
      sorted lists whose entries of each score appear in the same order are
      equal. */
  lemma {:induction false} SortedStableUnique(a: seq<Entry>, b: seq<Entry>)
    requires SortedDesc(a) && SortedDesc(b)
    requires forall k :: WithScore(a, k) == WithScore(b, k)
    ensures a == b
    decreases |a| + |b|
  {
    HeadIsListed(a);
    HeadIsListed(b);
    if |a| > 0 {
      var m := a[0].score;
      var n := b[0].score;
      assert WithScore(a, m)[0] == a[0];
      WithScoreMember(b, m, a[0]);
      assert WithScore(b, n)[0] == b[0];
      WithScoreMember(a, n, b[0]);
      assert m == n;
      assert a[0] == b[0];
      forall k ensures WithScore(a[1..], k) == WithScore(b[1..], k) {
        var head := if m == k then [a[0]] else [];
        assert WithScore(a, k) == head + WithScore(a[1..], k);
        assert WithScore(b, k) == head + WithScore(b[1..], k);
        assert (head + WithScore(a[1..], k))[|head|..] == WithScore(a[1..], k);
        assert (head + WithScore(b[1..], k))[|head|..] == WithScore(b[1..], k);
      }
      SortedStableUnique(a[1..], b[1..]);
      assert a == [a[0]] + a[1..];
      assert b == [b[0]] + b[1..];
    }
  }

  /** Independent characterisation of the sort: the one sorted list whose
      ties are in stored order. */
  lemma SortByScoreIsTheStableSort(s: seq<Entry>, t: seq<Entry>)
    requires SortedDesc(t)
    requires forall k :: WithScore(t, k) == WithScore(s, k)
    ensures t == SortByScore(s)
  {
    SortByScoreCorrect(s);
    SortedStableUnique(t, SortByScore(s));
  }

  lemma {:induction false} WithScorePrefix(s: seq<Entry>, n: nat, k: int)
    requires n <= |s|
    ensures WithScore(s[..n], k) <= WithScore(s, k)
    decreases n
  {
    if n > 0 {
      assert s[..n][0] == s[0];
      assert s[..n][1..] == s[1..][..n - 1];
      WithScorePrefix(s[1..], n - 1, k);
    }
  }

  /** Cutting a sorted list after `n` entries: the kept part is sorted and
      no dropped entry scores above a kept one. */
  lemma SortedPrefixIsTop(sorted: seq<Entry>, n: nat)
    requires SortedDesc(sorted)
    requires n <= |sorted|
    ensures SortedDesc(sorted[..n])
    ensures multiset(sorted[..n]) <= multiset(sorted)
    ensures forall e, f :: e in sorted[..n] && f in multiset(sorted) - multiset(sorted[..n]) ==> f.score <= e.score
  {
    var r := sorted[..n];
    assert sorted == r + sorted[n..];
    assert multiset(sorted) == multiset(r) + multiset(sorted[n..]);
    forall e, f | e in r && f in multiset(sorted) - multiset(r)
      ensures f.score <= e.score
    {
      assert f in multiset(sorted[n..]);
      var i :| 0 <= i < n && r[i] == e;
      var j :| 0 <= j < |sorted| - n && sorted[n..][j] == f;
      assert sorted[i] == e && sorted[n + j] == f;
    }
  }

  /** The view lists at most five entries (all of them when fewer are
      stored), sorted by non-increasing score, drawn from the stored list;
      no left-out entry beats a listed one, and entries with equal scores
      appear in stored order. */
  lemma TopEntriesCorrect(s: seq<Entry>)
    ensures |TopEntries(s)| == if |s| <= BoardSize then |s| else BoardSize
    ensures SortedDesc(TopEntries(s))
    ensures multiset(TopEntries(s)) <= multiset(s)
    ensures forall e, f :: e in TopEntries(s) && f in multiset(s) - multiset(TopEntries(s)) ==> f.score <= e.score
    ensures forall k :: WithScore(TopEntries(s), k) <= WithScore(s, k)
  {
    var sorted := SortByScore(s);
    SortByScoreCorrect(s);
    assert |sorted| == |multiset(sorted)| == |s|;
    var n := |TopEntries(s)|;
    assert TopEntries(s) == sorted[..n];
    SortedPrefixIsTop(sorted, n);
    forall k ensures WithScore(sorted[..n], k) <= WithScore(s, k) {
      WithScorePrefix(sorted, n, k);
    }
  }
}

=== FILE: player.dfy ===
/** The player record: a name and a counter that only ever starts at 0, is
    incremented by one, or is reset to 0 (player.js). */
module Players {

  datatype Player = Player(name: string, score: int)

  /** `new Player(name)`. */
  function NewPlayer(name: string): (p: Player)
    ensures p.name == name
    ensures p.score == 0
  {
    Player(name, 0)
  }

  /** `addScore()`: one more point, same player. */
  function AddScore(p: Player): (q: Player)
    ensures q.name == p.name
    ensures q.score == p.score + 1
  {
    p.(score := p.score + 1)
  }

  /** `resetScore()`: back to zero, same player. */
  function ResetScore(p: Player): (q: Player)
    ensures q.name == p.name
    ensures q.score == 0
  {
    p.(score := 0)
  }

  /** The two mutators of a player record. */
  datatype ScoreOp = Add | Reset

  function Apply(p: Player, op: ScoreOp): Player {
    match op
    case Add => AddScore(p)
    case Reset => ResetScore(p)
  }

  /** The record after performing `ops` in order, first to last. */
  function ApplyAll(p: Player, ops: seq<ScoreOp>): Player
    decreases |ops|
  {
    if |ops| == 0 then p else ApplyAll(Apply(p, ops[0]), ops[1..])
  }

  /** Reference definition of the score, read backwards from the last
      operation: a trailing Reset leaves 0, a trailing Add one more than what
      came before it. */
  function ScoreAfter(start: int, ops: seq<ScoreOp>): int
    decreases |ops|
  {
    if |ops| == 0 then start
    else if ops[|ops| - 1] == Reset then 0
    else ScoreAfter(start, ops[..|ops| - 1]) + 1
  }

  /** Performing one more operation at the end of a run. */
  lemma {:induction false} ApplyAllSnoc(p: Player, ops: seq<ScoreOp>, op: ScoreOp)
    ensures ApplyAll(p, ops + [op]) == Apply(ApplyAll(p, ops), op)
    decreases |ops|
  {
    if |ops| == 0 {
      assert ops + [op] == [op];
      assert ApplyAll(p, [op]) == ApplyAll(Apply(p, op), []);
    } else {
      assert (ops + [op])[0] == ops[0];
      assert (ops + [op])[1..] == ops[1..] + [op];
      ApplyAllSnoc(Apply(p, ops[0]), ops[1..], op);
    }
  }

  /** Any run of addScore/resetScore calls keeps the name and ends with the
      score the reference definition gives. */
  lemma {:induction false} ApplyAllMatchesReference(p: Player, ops: seq<ScoreOp>)
    ensures ApplyAll(p, ops).name == p.name
    ensures ApplyAll(p, ops).score == ScoreAfter(p.score, ops)
    decreases |ops|
  {
    if |ops| > 0 {
      var init := ops[..|ops| - 1];
      var last := ops[|ops| - 1];
      assert ops == init + [last];
      ApplyAllSnoc(p, init, last);
      ApplyAllMatchesReference(p, init);
    }
  }

  /** The score never goes negative: it starts at 0 and only increments or
      resets to 0. */
  lemma {:induction false} ScoreNeverNegative(name: string, ops: seq<ScoreOp>)
    ensures ApplyAll(NewPlayer(name), ops).name == name
    ensures ApplyAll(NewPlayer(name), ops).score >= 0
  {
    ApplyAllMatchesReference(NewPlayer(name), ops);
    ReferenceNonNegative(0, ops);
  }

  lemma {:induction false} ReferenceNonNegative(start: int, ops: seq<ScoreOp>)
    requires start >= 0
    ensures ScoreAfter(start, ops) >= 0
    decreases |ops|
  {
    if |ops| > 0 && ops[|ops| - 1] != Reset {
      ReferenceNonNegative(start, ops[..|ops| - 1]);
    }
  }
}

=== FILE: score_store.dfy ===
/** The persisted leaderboard list and its upsert (`saveScore` in
    gameManager.js). The storage key holds a list of (name, score) entries;
    an absent key reads as the empty list. */
module ScoreStore {
  import opened Wrappers

  datatype Entry = Entry(name: string, score: int)

  /** `JSON.parse(localStorage.getItem(key)) || []` for a key that is either
      absent (None) or holds a well-formed list. */
  function LoadStore(stored: Option<seq<Entry>>): seq<Entry> {
    match stored
    case None => []
    case Some(s) => s
  }

  /** Some entry of `s` carries `name`. */
  predicate Contains(s: seq<Entry>, name: string) {
    exists i :: 0 <= i < |s| && s[i].name == name
  }

  /** `i` is the position `scores.find(s => s.name === name)` lands on. */
  predicate FirstWithName(s: seq<Entry>, name: string, i: int) {
    && 0 <= i < |s|
    && s[i].name == name
    && forall j :: 0 <= j < i ==> s[j].name != name
  }

  /** The linear search of `Array.prototype.find`. */
  function FindName(s: seq<Entry>, name: string): (r: Option<nat>)
    ensures r.Some? ==> FirstWithName(s, name, r.value)
    ensures r.None? <==> !Contains(s, name)
    decreases |s|
  {
    if |s| == 0 then None
    else if s[0].name == name then Some(0)
    else
      match FindName(s[1..], name)
      case None => None
      case Some(i) => Some(i + 1)
  }

  /** No two entries share a name. */
  predicate NamesUnique(s: seq<Entry>) {
    forall i, j :: 0 <= i < j < |s| ==> s[i].name != s[j].name
  }

  /** `saveScore`: overwrite the first entry named `name`, or append one. */
  function Upsert(s: seq<Entry>, name: string, score: int): (r: seq<Entry>)
    ensures Contains(s, name) ==> |r| == |s|
    ensures !Contains(s, name) ==> r == s + [Entry(name, score)]
    ensures forall i :: FirstWithName(s, name, i) ==> r == s[i := Entry(name, score)]
    ensures forall j :: 0 <= j < |s| && s[j].name != name ==> r[j] == s[j]
    ensures Contains(r, name)
    // a list without duplicate names keeps none, and the saved name then
    // holds exactly the saved score
    ensures NamesUnique(s) ==> NamesUnique(r)
    ensures NamesUnique(s) ==> forall i :: 0 <= i < |r| && r[i].name == name ==> r[i].score == score
  {
    match FindName(s, name)
    case Some(i) =>
      var r := s[i := Entry(name, score)];
      assert r[i].name == name;
      r
    case None =>
      var r := s + [Entry(name, score)];
      assert r[|s|].name == name;
      r
  }

  /** Saving twice under one name is the same as saving the second score
      once: the list does not grow on the second save. */
  lemma UpsertTwice(s: seq<Entry>, name: string, a: int, b: int)
    ensures Upsert(Upsert(s, name, a), name, b) == Upsert(s, name, b)
    ensures |Upsert(Upsert(s, name, a), name, b)| == |Upsert(s, name, a)|
  {
  }

  /** Reading the stored key and upserting: an absent key behaves as the
      empty list, so the first save creates a one-entry list. */
  lemma FirstSaveCreatesList(name: string, score: int)
    ensures Upsert(LoadStore(None), name, score) == [Entry(name, score)]
  {
  }
}

=== FILE: turns.dfy ===
/** Properties of the turn state machine over whole event sequences: the
    answer lock and the expiry lock, the countdown, and the one re-entrant
    path (a non-numeric answer). */
module Turns {
  import opened Wrappers
  import opened Players
  import opened ScoreStore
  import opened Leaderboard
  import opened GameManager

  /** The events the at-most-once score bound covers: ticks, submissions
      and failed loads. */
  predicate InTurn(e: Event) {
    e.Tick? || e.Submit? || e.LoadFailed?
  }

  /** The events the at-most-once grading bound covers: those of `InTurn`
      and logins, which replace the player but keep the turn flags. */
  predicate KeepsLock(e: Event) {
    InTurn(e) || e.StartGame?
  }

  /** `e` is a numeric submission that gets past both guards, i.e. one that
      is graded and saved. */
  predicate Accepts(g: Game, e: Event) {
    e.Submit? && e.input.Some? && !Locked(g)
  }

  /** How many events of the run change the player's score. */
  function ScoreChanges(g: Game, es: seq<Event>): nat
    decreases |es|
  {
    if |es| == 0 then 0
    else
      var h := Step(g, es[0]);
      (if h.player.score != g.player.score then 1 else 0) + ScoreChanges(h, es[1..])
  }

  /** How many events of the run are graded (and so write the stored list). */
  function Graded(g: Game, es: seq<Event>): nat
    decreases |es|
  {
    if |es| == 0 then 0
    else (if Accepts(g, es[0]) then 1 else 0) + Graded(Step(g, es[0]), es[1..])
  }

  /** Within one turn at most one submission is graded and the score changes
      at most once; once the turn is locked, neither happens again. */
  lemma {:induction false} AtMostOneScoreChange(g: Game, es: seq<Event>)
    requires forall i :: 0 <= i < |es| ==> InTurn(es[i])
    ensures Graded(g, es) <= (if Locked(g) then 0 else 1)
    ensures ScoreChanges(g, es) <= (if Locked(g) then 0 else 1)
    ensures Locked(g) ==> Locked(Run(g, es)) && Run(g, es).player == g.player && Run(g, es).stored == g.stored
    decreases |es|
  {
    if |es| > 0 {
      var h := Step(g, es[0]);
      assert InTurn(es[0]);
      assert Locked(g) ==> Locked(h) && h.player == g.player && h.stored == g.stored;
      assert Accepts(g, es[0]) ==> Locked(h);
      assert !Accepts(g, es[0]) ==> h.player == g.player;
      AtMostOneScoreChange(h, es[1..]);
    }
  }

  /** Logins between two loads do not reopen a closed turn: in a run without
      a load or a logout, at most one submission is graded, and none once
      the turn is closed. */
  lemma {:induction false} AtMostOneGraded(g: Game, es: seq<Event>)
    requires forall i :: 0 <= i < |es| ==> KeepsLock(es[i])
    ensures Graded(g, es) <= (if Locked(g) then 0 else 1)
    ensures Locked(g) ==> Locked(Run(g, es))
    decreases |es|
  {
    if |es| > 0 {
      var h := Step(g, es[0]);
      assert KeepsLock(es[0]);
      assert Locked(g) ==> Locked(h);
      assert Accepts(g, es[0]) ==> Locked(h);
      AtMostOneGraded(h, es[1..]);
    }
  }

  /** In a reachable state, a closed turn is frozen: ticks, submissions and
      failed loads change nothing at all, and expiry is never undone. */
  lemma {:induction false} LockedTurnIsFrozen(g: Game, es: seq<Event>)
    requires Valid(g) && Locked(g)
    requires forall i :: 0 <= i < |es| ==> InTurn(es[i])
    ensures Run(g, es) == g
    decreases |es|
  {
    if |es| > 0 {
      assert InTurn(es[0]);
      assert Step(g, es[0]) == g;
      LockedTurnIsFrozen(g, es[1..]);
    }
  }

  /** `n` firings of the interval. */
  function Ticks(n: nat): (es: seq<Event>)
    ensures |es| == n
    ensures forall i :: 0 <= i < n ==> es[i] == Tick
  {
    seq(n, i => Tick)
  }

  /** A running countdown with more than `n` seconds left is `n` lower after
      `n` ticks and nothing else moves. */
  lemma {:induction false} CountDown(g: Game, n: nat)
    requires g.running && n < g.timeLeft
    ensures Run(g, Ticks(n)) == g.(timeLeft := g.timeLeft - n)
    decreases n
  {
    if n > 0 {
      assert Ticks(n)[0] == Tick && Ticks(n)[1..] == Ticks(n - 1);
      CountDown(TimerTick(g), n - 1);
    }
  }

  /** A running countdown expires on exactly its last tick. */
  lemma {:induction false} CountDownExpires(g: Game)
    requires g.running && 1 <= g.timeLeft
    ensures Run(g, Ticks(g.timeLeft)) == g.(timeLeft := 0, isTimeUp := true, running := false)
  {
    var n := g.timeLeft;
    assert Ticks(n) == Ticks(n - 1) + [Tick];
    RunAppend(g, Ticks(n - 1), [Tick]);
    CountDown(g, n - 1);
  }

  lemma {:induction false} RunAppend(g: Game, xs: seq<Event>, ys: seq<Event>)
    ensures Run(g, xs + ys) == Run(Run(g, xs), ys)
    decreases |xs|
  {
    if |xs| > 0 {
      assert (xs + ys)[0] == xs[0];
      assert (xs + ys)[1..] == xs[1..] + ys;
      RunAppend(Step(g, xs[0]), xs[1..], ys);
    } else {
      assert xs + ys == ys;
    }
  }

  /** After a successful load and no submission, the turn is still open,
      with the countdown running at 10 - k, after k < 10 ticks; it is
      expired after ten, and then refuses every submission. */
  lemma TurnExpiresAfterTenTicks(g: Game, answer: int, input: Option<int>)
    ensures forall k :: 0 <= k < TurnLength ==>
              && !Locked(Run(LoadPuzzle(g, answer), Ticks(k)))
              && Run(LoadPuzzle(g, answer), Ticks(k)).running
              && Run(LoadPuzzle(g, answer), Ticks(k)).timeLeft == TurnLength - k
    ensures Run(LoadPuzzle(g, answer), Ticks(TurnLength)).isTimeUp
    ensures !Run(LoadPuzzle(g, answer), Ticks(TurnLength)).running
    ensures SubmitAnswer(Run(LoadPuzzle(g, answer), Ticks(TurnLength)), input) == Run(LoadPuzzle(g, answer), Ticks(TurnLength))
  {
    var h := LoadPuzzle(g, answer);
    forall k | 0 <= k < TurnLength
      ensures !Locked(Run(h, Ticks(k))) && Run(h, Ticks(k)).running && Run(h, Ticks(k)).timeLeft == TurnLength - k
    {
      CountDown(h, k);
    }
    CountDownExpires(h);
  }

  /** A non-numeric answer on an open turn leaves the turn open but stops the
      countdown for the rest of the turn: no later tick moves the clock, and a numeric
      resubmission is still graded. */
  lemma NonNumericFreezesClock(g: Game, n: nat, v: int)
    requires !Locked(g)
    ensures !SubmitAnswer(g, None).running && !Locked(SubmitAnswer(g, None))
    ensures SubmitAnswer(g, None).player == g.player
    ensures Run(SubmitAnswer(g, None), Ticks(n)) == SubmitAnswer(g, None)
    ensures SubmitAnswer(SubmitAnswer(g, None), Some(v)).hasAnswered
  {
    var h := SubmitAnswer(g, None);
    StoppedClockIgnoresTicks(h, n);
  }

  lemma {:induction false} StoppedClockIgnoresTicks(g: Game, n: nat)
    requires !g.running
    ensures Run(g, Ticks(n)) == g
    decreases n
  {
    if n > 0 {
      assert Ticks(n)[0] == Tick && Ticks(n)[1..] == Ticks(n - 1);
      StoppedClockIgnoresTicks(g, n - 1);
    }
  }

  /** Logout clears both turn flags without a new puzzle and keeps the stored
      scores, and a later login keeps them too. */
  lemma LogoutKeepsStore(g: Game, name: string)
    ensures Run(g, [Logout, StartGame(name)]).stored == g.stored
    ensures !Locked(Run(g, [Logout, StartGame(name)]))
    ensures Run(g, [Logout, StartGame(name)]).player == NewPlayer(name)
  {
    var h := LogoutStep(g);
    assert [Logout, StartGame(name)][1..] == [StartGame(name)];
    assert Run(g, [Logout, StartGame(name)]) == Run(h, [StartGame(name)]);
    assert Run(h, [StartGame(name)]) == Run(StartGameStep(h, name), []);
  }

  /** One puzzle: a successful load followed by one submission. */
  lemma {:induction false} LoadThenSubmit(g: Game, answer: int, input: Option<int>)
    ensures Run(g, [LoadSucceeded(answer), Submit(input)]) == SubmitAnswer(LoadPuzzle(g, answer), input)
  {
    var l := LoadPuzzle(g, answer);
    assert [LoadSucceeded(answer), Submit(input)][1..] == [Submit(input)];
    assert Run(g, [LoadSucceeded(answer), Submit(input)]) == Run(l, [Submit(input)]);
    assert Run(l, [Submit(input)]) == Run(SubmitAnswer(l, input), []);
  }

  /** A correct answer by "Ada" on a fresh browser scores 1 and shows
      `Ada: 1`. */
  lemma AdaAnswersCorrectly()
    ensures Run(Start("Ada", None), [LoadSucceeded(7), Submit(Some(7))]).player == Player("Ada", 1)
    ensures Run(Start("Ada", None), [LoadSucceeded(7), Submit(Some(7))]).stored == Some([Entry("Ada", 1)])
    ensures Run(Start("Ada", None), [LoadSucceeded(7), Submit(Some(7))]).board == [Entry("Ada", 1)]
  {
    LoadThenSubmit(Start("Ada", None), 7, Some(7));
    assert Upsert([], "Ada", 1) == [Entry("Ada", 1)];
    assert TopEntries([Entry("Ada", 1)]) == [Entry("Ada", 1)];
  }

  /** Then a wrong answer on the next puzzle: the score stays 1, and the
      stored list and the board still hold the single entry `Ada: 1`. */
  lemma AdaThenAnswersWrongly(g: Game)
    requires g.player == Player("Ada", 1) && g.stored == Some([Entry("Ada", 1)])
    ensures Run(g, [LoadSucceeded(3), Submit(Some(4))]).player == Player("Ada", 1)
    ensures Run(g, [LoadSucceeded(3), Submit(Some(4))]).stored == Some([Entry("Ada", 1)])
    ensures Run(g, [LoadSucceeded(3), Submit(Some(4))]).board == [Entry("Ada", 1)]
  {
    LoadThenSubmit(g, 3, Some(4));
    assert FirstWithName([Entry("Ada", 1)], "Ada", 0);
    assert Upsert([Entry("Ada", 1)], "Ada", 1) == [Entry("Ada", 1)];
    assert TopEntries([Entry("Ada", 1)]) == [Entry("Ada", 1)];
  }
}

=== FILE: wrappers.dfy ===
/** Optional values. The model uses them where the program has `null` (an
    absent storage key) or `NaN` (an answer field that does not parse as a
    number). */
module Wrappers {

  datatype Option<T> = None | Some(value: T)
}
